=== FILE: README.md ===
# Messaging relay: a Dafny model of its handlers

The relay lets sub-admins register devices and assign them to their users,
and relays text messages while tracking each message's status and telling
interested identities about it over per-identity rooms. This project models
its decision logic. The database is a value `Db` with three maps (messages,
users, devices) from object ids to documents. What the handlers emit is a
list of `Event`s addressed to a room, to every client, or to the calling
socket. Each handler is a pure function:

- a socket handler returns a `Step` (new database, events);
- an HTTP handler returns an `Http` (new database, events, status code, body).

Modules follow the source files:

- `MessageModel`, `UserModel` and `DeviceModel` are the three schemas. A
  document is built, then validated as a save does: required fields, enums,
  defaults.
- `Relay` holds the database, the events, the replies and the store
  invariant `Valid`. `Valid` says the required fields are present and the
  unique indexes on e-mail and phone number hold.
- `MessageController`, `DeviceController` and `UserController` are the HTTP
  handlers.
- `Server` holds the socket handlers.
- `Lifecycle` relates the handlers to one another.
- `Common` holds options, results, JavaScript truthiness and facts about id
  lists.

Values the code gets from its environment are parameters:

- the id of a new document (reusing a stored id is a duplicate-key failure);
- the transport outcome of a send;
- the object-id check applied to a socket message's `deviceId`.

Behaviour of the code worth knowing, modelled as written:

- `read` is written by the read handlers but is not in the status
  enumeration. Status updates skip validation, so it is stored anyway.
- `threadId` is computed by the socket handlers, but the message schema
  declares no such path. The model keeps it as a field.
- `messageSent` rooms are not de-duplicated. A user whose sub-admin
  reference names itself is told twice.
- When the sender of a socket message is unknown, the message stays stored,
  yet the caller gets "Failed to save message". A present but unknown sender
  has already had the saved document broadcast to every client; no
  `messageSent` goes out.
- Status changes are not restricted to any transition graph. Every setter
  overwrites whatever status was there.
- The listing's regular-user branch keeps messages whose device's *owner*
  field is the requester. It does not look at the assigned users.
- Registration checks the sub-admin only for an explicit `user` role. With
  no role given, the schema defaults it to `user` and stores a null
  `subAdminId`.
- No pending-message queue, drain loop or retry exists in the code, so none
  is modelled.

## Model

| member | source | states |
|---|---|---|
| MessageModel.NewMessage | models/Message.js:3-12 | a message saves exactly when sender, receiver and content are non-empty, the status is one of the four declared values and the origin one of the five names; status defaults to pending, origin to CRM, and the references are kept as given |
| MessageModel.ParseOrigin | models/Message.js:10 | an origin is accepted exactly when it is the name of one of CRM, API, Web, Android, WebSocket |
| MessageModel.OriginRoundTrip | models/Message.js:10 | each origin is accepted under its own name |
| MessageModel.OnlyReadUndeclared | models/Message.js:7 | `read` is the only status the code writes that the enumeration lacks |
| UserModel.ParseRole | models/User.js:6 | a role is accepted exactly when it is super_admin, sub_admin or user |
| UserModel.RoleRoundTrip | models/User.js:6 | each role is accepted under its own name |
| UserModel.NewUser | models/User.js:3-9 | a user saves exactly when its e-mail is non-empty and its role, if given, is declared; role defaults to user, subAdminId to null, name is optional |
| DeviceModel.ValidateDevice | models/Device.js:3-10 | a device saves exactly when it has a non-empty phone number and an owner |
| Relay.InsertMessage | server.js:106 | saving a new message succeeds exactly when its id is unused, adds exactly that message and leaves the users and devices alone |
| Relay.UpdateStatus | controllers/MessageController.js:103 | the by-id status update writes the given status on that message, whatever it held, and changes no other message, field or collection |
| UserController.InsertUser | models/User.js:5 | a new user is stored exactly when its id and its e-mail address are both unused |
| MessageController.PendingDraft | controllers/MessageController.js:57-67 | a send builds a pending CRM message with no thread, valid exactly when sender, receiver and content are present, and carrying the request's sender, receiver, content, userId and deviceId unchanged |
| MessageController.SavePending | controllers/MessageController.js:60-69 | the first save stores the new message as pending and leaves everything else unchanged |
| MessageController.Outcome | controllers/MessageController.js:74-82 | a transport outcome resolves to sent on success and failed otherwise, never anything else |
| MessageController.SendMessage | controllers/MessageController.js:55-90 | a rejected first save answers 500 with no change and no emit; otherwise exactly the new message is added, with the outcome's status, exactly one broadcast carries that persisted status, the answer is 201, and the store invariant is kept |
| MessageController.SendResolvesToSentOrFailed | controllers/MessageController.js:72-82 | after a send the status is sent exactly when the transport succeeded and failed exactly when it did not |
| MessageController.SendIsPendingThenResolved | controllers/MessageController.js:60-82 | a send stores the message as pending first, and its result is that store with the outcome applied |
| MessageController.SetMessageStatus | controllers/MessageController.js:99-148 | an unknown id answers 404 with no change and no emit; a known id gets the target status whatever it had, no other message or field changes, and one broadcast carries the new status |
| MessageController.SetMessageDelivered | controllers/MessageController.js:100-114 | 404 exactly for an unknown id, with nothing emitted; otherwise the message is delivered and one update is broadcast |
| MessageController.SetMessageRead | controllers/MessageController.js:117-131 | 404 exactly for an unknown id, with nothing emitted; otherwise the message holds `read`, a status the schema does not declare, and one update is broadcast |
| MessageController.SetMessageFailed | controllers/MessageController.js:134-148 | 404 exactly for an unknown id, with nothing emitted; otherwise the message is failed and one update is broadcast |
| MessageController.SetStatusIdempotent | controllers/MessageController.js:103-110 | setting the same status twice stores what setting it once does |
| MessageController.LastSetterWins | controllers/MessageController.js:99-148 | two setters in a row store what the second alone stores: no transition is ever refused |
| MessageController.GetAllMessages | controllers/MessageController.js:20-50 | with the user and device models in scope: a super-admin gets every message, a sub-admin exactly those of users whose subAdminId is it, anyone else exactly its own messages on devices whose owner field is it; nothing changes |
| MessageController.GetAllMessagesAsWritten | controllers/MessageController.js:1-50 | as written, only a super-admin gets an answer (every message); every other role gets 500 |
| MessageController.SubAdminListingFails | controllers/MessageController.js:29-34 | a sub-admin with visible messages gets 500 as written, while the listing with the models in scope returns them |
| MessageController.TenantSeesUsersMessages | controllers/MessageController.js:29-43 | a sub-admin's listing includes every message its users' listings include |
| MessageController.UnownedDevicesHideMessages | controllers/MessageController.js:35-43 | a requester that owns no device sees no message, whatever it is assigned to |
| DeviceController.AppendAbsentKeepsPrefix | controllers/DeviceController.js:48-52 | the assignment loop (`AppendAbsent`) only appends, at most one entry per requested id: the old list is a prefix of the result |
| DeviceController.AppendAbsentIsNewIds | controllers/DeviceController.js:47-52 | the assignment loop yields the old list followed by the requested ids that are neither in it nor earlier in the request, in request order |
| DeviceController.AppendAbsentMembers | controllers/DeviceController.js:48-52 | the result holds exactly the old entries and the requested ids |
| DeviceController.AppendAbsentKeepsDistinct | controllers/DeviceController.js:48-52 | a list without duplicates stays without duplicates |
| DeviceController.AppendAbsentIdempotent | controllers/DeviceController.js:48-52 | running the loop again with the same request changes nothing |
| DeviceController.TenantCheckMeaning | controllers/DeviceController.js:36-39 | the count comparison passes exactly when the requested ids are distinct and all belong to users of the sub-admin, so a repeated id is refused |
| DeviceController.AssignDeviceToUsers | controllers/DeviceController.js:31-60 | the tenant check comes first and the ownership check second, each answering 400 with no change; success answers 200 with only that device's list extended by the new ids; an owned device with a passing request always succeeds on a valid store; the store invariant is kept |
| DeviceController.AssignmentKeepsEntries | controllers/DeviceController.js:47-55 | a successful assignment keeps the old list as a prefix, holds exactly the old entries and the requested users, and keeps a duplicate-free list duplicate-free |
| DeviceController.AssignmentIdempotent | controllers/DeviceController.js:36-55 | repeating a successful assignment succeeds and leaves the store unchanged |
| DeviceController.EmptyAssignmentChangesNothing | controllers/DeviceController.js:36-55 | an empty request for an owned device succeeds and changes nothing |
| DeviceController.RegistrationDraft | controllers/DeviceController.js:16-20 | registration builds a device owned by the requester with no assigned users and no phone number |
| DeviceController.RegisterDevice | controllers/DeviceController.js:5-28 | a missing or non-sub-admin requester gets 403; a sub-admin gets 500 because the required phone number is missing; no device is ever created |
| DeviceController.RegisterDeviceWithPhone | controllers/DeviceController.js:5-28 | with a phone number supplied, 403 for a non-sub-admin, and 201 exactly for a sub-admin with a non-empty, unused number and a fresh id, adding only a device it owns with an empty list |
| DeviceController.RegistrationAlwaysFails | controllers/DeviceController.js:16-23 | a sub-admin request that would succeed with a phone number fails as written |
| UserController.RegisterUser | controllers/UserController.js:4-21 | an explicit `user` role with a missing or empty sub-admin answers 400; 201 exactly when the document validates and id and e-mail are unused, adding exactly one user with the given fields; otherwise nothing changes |
| UserController.OmittedRoleEscapesTenancy | controllers/UserController.js:9-14 | with no role and no sub-admin, registration succeeds and stores a regular user with a null subAdminId |
| UserController.RegisteredUserRoleHasSubAdmin | controllers/UserController.js:9-11 | a user registered with an explicit `user` role always has a sub-admin |
| UserController.LoginUser | controllers/UserController.js:23-44 | an unknown address answers 404 with no token; a known one yields the token payload of that user's id and role |
| UserController.RegisterThenLogin | controllers/UserController.js:23-40 | logging in with a just-registered address yields the new user's id and role |
| Server.OnGetAllMessages | server.js:60-83 | without user id or role the caller gets one error; a super-admin gets every message; anyone else gets exactly the messages it owns or receives; nothing changes |
| Server.ListingsAgree | server.js:60-83 | the socket listing and the HTTP listing (with the models in scope) both give a super-admin every message; for any role but the two admin roles, every message the HTTP listing returns is in the socket listing with the same content |
| Server.SocketDraft | server.js:89-101 | a socket message is built with status sent, receiver defaulting to "Unknown", origin to CRM, thread to null, and a device id kept exactly when it is a valid object id |
| Server.SentRooms | server.js:118-128 | at most two rooms are told, each the sender's or its sub-admin's; the sender is told exactly when it has a stored sub-admin or is a sub-admin, and a stored sub-admin is always told |
| Server.ResolvedSubAdmin | server.js:118-119 | a user's sub-admin resolves exactly when the reference is set and names a stored user |
| Server.OnMessage | server.js:86-133 | the full list of events for each branch: a failed save stores nothing and sends only an error to the calling socket; after a save a missing `userId` gives only that error, a `userId` naming no stored user a broadcast of the document to every client followed by that error; otherwise the broadcast is followed by `messageSent` to exactly the sender's and the sub-admin's rooms, to the sender's room alone for a sub-admin without one, and to no room otherwise |
| Server.SelfSubAdminNotifiedTwice | server.js:119-122 | rooms are not merged: a user that is its own sub-admin is told twice |
| Server.SentOnlyToSenderOrSubAdmin | server.js:118-128 | every room told about a new message belongs to the sender or to the sender's sub-admin |
| Server.ThreadOf | server.js:153 | a reply joins the original's thread when it has one, and otherwise the thread named by the original's id; the model keeps `threadId` as a field, while the schema drops it, so as written the first case never arises |
| Server.ReplyDraft | server.js:146-155 | a reply goes from the replier to the original's sender, on the original's device and thread, with status sent; its origin is the requested one when given and CRM otherwise |
| Server.OnReplyMessage | server.js:136-166 | an unknown original or a failed save creates and emits nothing; otherwise the reply is stored and `newReply` goes to the original sender's room and then the replier's room |
| Server.ReplyChainSharesThread | server.js:153 | in the model only, which keeps `threadId`: replying to a reply stays in the thread started by the first original; as written the stored reply has no `threadId`, so a reply to it starts a thread named by its own id |
| Server.OnStatusEvent | server.js:169-202 | an unknown id changes and emits nothing; a known one gets the target status whatever it had, and only the owner's room is told (nobody when there is no owner) |
| Server.OnMessageDelivered | server.js:169-184 | an unknown id changes and emits nothing; otherwise the message is delivered and only its owner's room, if it has an owner, gets one update |
| Server.OnMessageRead | server.js:187-202 | an unknown id changes and emits nothing; otherwise the message holds `read` and only its owner's room, if it has an owner, gets one update |
| Server.SubAdminNeverNotified | server.js:177-180 | as written, no status event ever reaches a room other than the owner's |
| Server.OnStatusEventNotifyingTenant | server.js:177-180 | corrected: after the same store change, a stored owner whose `subAdminId` is set gets one update in its room and then one in the room that `subAdminId` names, any other owner one update in its room only, and a message with no owner no update |
| Server.CorrectedReachesSubAdmin | server.js:177-180 | the corrected handler reaches the owner's sub-admin, which the handler as written misses |
| Server.OnGetPendingMessages | server.js:205-213 | the caller gets exactly the pending messages, unchanged, and nothing else changes |
| Lifecycle.SendLeavesPendingSet | controllers/MessageController.js:60-84 | a sent message is pending between its two saves, and once the send completes the pending messages are those before the send |
| Lifecycle.SocketMessageNeverPending | server.js:92-106 | a socket message is stored and is never pending |
| Lifecycle.SettersNeverReintroducePending | controllers/MessageController.js:99-148 | no setter, HTTP or socket, leaves its target message pending |
| Lifecycle.ReadHandlersAgreeOnStore | controllers/MessageController.js:117-131 | the HTTP and socket read handlers store the same result |

## Left out

- Express, Socket.IO and Mongoose setup, room joining, connection logging, listening and connecting: transport plumbing with no decisions in it.
- The broadcast after a socket message is saved: its event name is a function and its payload spreads document internals. It is recorded as an opaque `DocumentBroadcast` to every client. Only the failure when `userId` is missing is modelled.
- The route files and the authentication middleware: request wiring. The routes pass middleware functions the middleware file does not define (`isAuthenticated`, `isSubAdmin`). An undefined handler makes the router's registration throw when the server loads the route files at server.js:10, so as written the process never starts. The handlers are modelled as if it did.
- Signing of the login token, its secret and its expiry: a foreign library. Only the payload (user id and role) is modelled.
- The random transport outcome: it is an input boolean.
- Casting of object ids. Only the socket message's `deviceId` is checked, through the `isObjectId` parameter. Every other id is assumed castable, so the cast-error paths of the queries and saves are not modelled.
- Populating a reference is modelled only as resolving `subAdminId` to a stored user.
- Strict-mode dropping of paths the schemas do not declare (`threadId`, `deviceName`): `threadId` is kept as a field and `deviceName` is never stored.
- Timestamps (`createdAt`, `registeredAt`).
- Interleaving of concurrent handlers: each handler runs atomically.
- Store failures other than validation and duplicate keys (lost connections and the like), which reach the handlers' 500 and log-only branches.
- The order of query results: results are maps from id to document.
- The success messages in HTTP bodies ("Message processed" and the like): only the data part is modelled.
- The contact model: no handler uses it.
- UserController.LoginUser: requires that no two users share an e-mail address. The unique index guarantees this; without it, which user `findOne` returns is not determined.
- MessageController.GetAllMessages: takes the requester id as present. What a query with an absent id returns is not modelled.
- DeviceController.AssignDeviceToUsers: takes the sub-admin id, the device id and the id list as present in the request body.
- UserController.LoginUser: takes the e-mail as a present string. With no e-mail, or with a query object in its place, the lookup's filter matches any user, so which token is issued is not modelled.
- Server.OnReplyMessage: takes `originalMessageId` as a present string. With a query object in its place, the lookup may match an arbitrary message, and a reply to that message's sender would be stored and emitted; this is not modelled.
- DeviceController.RegisterDevice: takes `subAdminId` as absent or a present string. With a query object in its place, the lookup may match an arbitrary user; the outcome is still 403 or 500, since the save always fails, but which of the two is not modelled.
- Server.OnStatusEvent: takes `messageId` as a present string, as do Server.OnMessageDelivered and Server.OnMessageRead. With no id, or with a query object in its place, the update may match an arbitrary message, which is not modelled.

## Findings

| source | as written | input that shows it | evidently intended | confidence | as-written member | corrected member |
|---|---|---|---|---|---|---|
| server.js:177-180 | the notification reads `subAdminId` off the owner id, which is not populated, so it throws after the first emit | any stored message whose owner has a sub-admin, marked delivered or read over the socket | the owner's room and the owner's sub-admin's room are both told | high; not executed | Server.SubAdminNeverNotified | Server.OnStatusEventNotifyingTenant |
| controllers/MessageController.js:1-44 | the module imports only the message model, so the sub-admin and regular-user branches reach an undefined `User` or `Device` and answer 500 | `getAllMessages` with role `sub_admin` | the sub-admin sees its users' messages and a user its own messages on its devices | high; not executed | MessageController.SubAdminListingFails | MessageController.GetAllMessages |
| controllers/DeviceController.js:16-22 | the device is built without the required phone number, so the save always fails | any registration by a stored sub-admin | the sub-admin gets a new device it owns, with no assigned users | high; not executed | DeviceController.RegistrationAlwaysFails | DeviceController.RegisterDeviceWithPhone |

=== FILE: common.dfy ===
/** Shared vocabulary of the relay model: optional values, save failures,
    JavaScript truthiness of request fields, and facts about lists of ids. */
module Common {

  /** An object id, handled through its string form (`toString()`); the same
      string names the identity's notification room. */
  type Id = string

  datatype Option<+T> = None | Some(value: T)

  /** Why saving a document failed. */
  datatype Fault =
    | Validation(path: string)    // a schema validator rejected the document
    | DuplicateKey(path: string)  // `_id` or a unique index already holds the value

  datatype Result<+T> = Ok(value: T) | Err(fault: Fault)

  /** JavaScript truthiness of an optional string: absent, null and "" are falsy. */
  predicate Truthy(o: Option<string>) {
    o.Some? && o.value != ""
  }

  /** `o || fallback` for a string field. */
  function OrElse(o: Option<string>, fallback: string): (r: string)
    ensures r == fallback || (o.Some? && r == o.value && r != "")
  {
    if Truthy(o) then o.value else fallback
  }

  /** `o || null` for a string field. */
  function Present(o: Option<string>): (r: Option<string>)
    ensures r.Some? <==> Truthy(o)
  {
    if Truthy(o) then o else None
  }

  /** No value occurs twice in `s`. */
  predicate Distinct(s: seq<Id>) {
    forall i, j :: 0 <= i < j < |s| ==> s[i] != s[j]
  }

  /** The values occurring in `s`. */
  function Elements(s: seq<Id>): (r: set<Id>)
    ensures forall x :: x in r <==> x in s
  {
    set x | x in s
  }

  /** A list has at most as many different values as entries, and exactly as
      many when no value repeats. */
  lemma {:induction false} ElementsCardinality(s: seq<Id>)
    ensures |Elements(s)| <= |s|
    ensures |Elements(s)| == |s| <==> Distinct(s)
  {
    if s != [] {
      var t := s[1..];
      ElementsCardinality(t);
      assert Elements(s) == {s[0]} + Elements(t);
      if s[0] in t {
        assert Elements(s) == Elements(t);
        var k :| 0 <= k < |t| && t[k] == s[0];
        assert s[0] == s[k + 1];
        assert !Distinct(s);
      } else {
        assert s[0] !in Elements(t);
        assert |Elements(s)| == |Elements(t)| + 1;
        assert Distinct(s) <==> Distinct(t) by {
          if Distinct(t) {
            forall i, j | 0 <= i < j < |s| ensures s[i] != s[j] {
              if i > 0 {
                assert s[i] == t[i - 1] && s[j] == t[j - 1];
              } else {
                assert s[j] == t[j - 1];
              }
            }
          }
          if Distinct(s) {
            forall i, j | 0 <= i < j < |t| ensures t[i] != t[j] {
              assert t[i] == s[i + 1] && t[j] == s[j + 1];
            }
          }
        }
      }
    }
  }
}

=== FILE: device_controller.dfy ===
/** The HTTP device handlers: registration by a sub-admin and assignment of
    a device to users of the same tenant. */
module DeviceController {
  import opened Common
  import opened UserModel
  import opened DeviceModel
  import opened Relay

  // ----- the de-duplicating append -----

  /** Appending the requested ids one at a time, each only when the list does
      not already hold it, as the assignment loop does. */
  function AppendAbsent(list: seq<Id>, ids: seq<Id>): seq<Id>
    decreases |ids|
  {
    if ids == [] then list
    else AppendAbsent(if ids[0] in list then list else list + [ids[0]], ids[1..])
  }

  /** The loop only ever appends, at most once per requested id: the old
      list is a prefix of the result. */
  lemma {:induction false} AppendAbsentKeepsPrefix(list: seq<Id>, ids: seq<Id>)
    ensures |list| <= |AppendAbsent(list, ids)| <= |list| + |ids|
    ensures AppendAbsent(list, ids)[..|list|] == list
    decreases |ids|
  {
    if ids != [] {
      var next := if ids[0] in list then list else list + [ids[0]];
      AppendAbsentKeepsPrefix(next, ids[1..]);
      assert next[..|list|] == list;
    }
  }

  /** The requested ids that the assignment adds, in request order: those
      neither in `list` nor earlier in the request. */
  function NewIds(list: seq<Id>, ids: seq<Id>): (r: seq<Id>)
    decreases |ids|
  {
    if ids == [] then []
    else
      var prev := ids[..|ids| - 1];
      var x := ids[|ids| - 1];
      NewIds(list, prev) + (if x in list || x in prev then [] else [x])
  }

  /** An id is added exactly when it is requested and not yet assigned. */
  lemma {:induction false} NewIdsMembership(list: seq<Id>, ids: seq<Id>, x: Id)
    ensures x in NewIds(list, ids) <==> x in ids && x !in list
    decreases |ids|
  {
    if ids != [] {
      var prev := ids[..|ids| - 1];
      NewIdsMembership(list, prev, x);
      assert ids == prev + [ids[|ids| - 1]];
    }
  }

  /** The added ids are all different and none was assigned before. */
  lemma {:induction false} NewIdsFresh(list: seq<Id>, ids: seq<Id>)
    ensures Distinct(NewIds(list, ids))
    ensures forall x :: x in NewIds(list, ids) ==> x !in list
    decreases |ids|
  {
    if ids != [] {
      var prev := ids[..|ids| - 1];
      var x := ids[|ids| - 1];
      NewIdsFresh(list, prev);
      forall y | y in NewIds(list, ids) ensures y !in list {
        NewIdsMembership(list, ids, y);
      }
      if !(x in list || x in prev) {
        NewIdsMembership(list, prev, x);
        var n := NewIds(list, prev);
        assert NewIds(list, ids) == n + [x];
        forall i, j | 0 <= i < j < |n + [x]| ensures (n + [x])[i] != (n + [x])[j] {
          if j == |n| {
            assert (n + [x])[i] == n[i];
          } else {
            assert (n + [x])[i] == n[i] && (n + [x])[j] == n[j];
          }
        }
      }
    }
  }

  /** Appending one more id to the request appends it to the result unless
      the result already holds it. */
  lemma {:induction false} AppendAbsentSnoc(list: seq<Id>, ids: seq<Id>, x: Id)
    ensures AppendAbsent(list, ids + [x]) ==
      (var p := AppendAbsent(list, ids); if x in p then p else p + [x])
    decreases |ids|
  {
    if ids == [] {
      assert [x][1..] == [];
    } else {
      var next := if ids[0] in list then list else list + [ids[0]];
      assert (ids + [x])[0] == ids[0];
      assert (ids + [x])[1..] == ids[1..] + [x];
      AppendAbsentSnoc(next, ids[1..], x);
    }
  }

  /** The assignment loop keeps the old list as it was and appends, in
      request order, exactly the requested ids it did not hold. */
  lemma {:induction false} AppendAbsentIsNewIds(list: seq<Id>, ids: seq<Id>)
    ensures AppendAbsent(list, ids) == list + NewIds(list, ids)
    decreases |ids|
  {
    if ids == [] {
      assert list + [] == list;
    } else {
      var prev := ids[..|ids| - 1];
      var x := ids[|ids| - 1];
      assert ids == prev + [x];
      AppendAbsentIsNewIds(list, prev);
      AppendAbsentSnoc(list, prev, x);
      var p := AppendAbsent(list, prev);
      NewIdsMembership(list, prev, x);
      assert x in p <==> x in list || x in prev;
      if x in list || x in prev {
        assert NewIds(list, ids) == NewIds(list, prev) + [];
      } else {
        assert NewIds(list, ids) == NewIds(list, prev) + [x];
        assert p + [x] == list + (NewIds(list, prev) + [x]);
      }
    }
  }

  /** The result holds exactly the old entries and the requested ids. */
  lemma AppendAbsentMembers(list: seq<Id>, ids: seq<Id>, x: Id)
    ensures x in AppendAbsent(list, ids) <==> x in list || x in ids
  {
    AppendAbsentIsNewIds(list, ids);
    NewIdsMembership(list, ids, x);
  }

  /** A list without duplicates stays without duplicates. */
  lemma AppendAbsentKeepsDistinct(list: seq<Id>, ids: seq<Id>)
    requires Distinct(list)
    ensures Distinct(AppendAbsent(list, ids))
  {
    AppendAbsentIsNewIds(list, ids);
    NewIdsFresh(list, ids);
    var n := NewIds(list, ids);
    var r := list + n;
    forall i, j | 0 <= i < j < |r| ensures r[i] != r[j] {
      if j < |list| {
        assert r[i] == list[i] && r[j] == list[j];
      } else if i < |list| {
        assert r[i] == list[i] && r[j] == n[j - |list|];
        assert n[j - |list|] in n;
      } else {
        assert r[i] == n[i - |list|] && r[j] == n[j - |list|];
      }
    }
  }

  /** When every requested id is already present, nothing is appended. */
  lemma {:induction false} NewIdsOfPresent(list: seq<Id>, ids: seq<Id>)
    requires forall x :: x in ids ==> x in list
    ensures NewIds(list, ids) == []
    decreases |ids|
  {
    if ids != [] {
      var prev := ids[..|ids| - 1];
      assert forall x :: x in prev ==> x in ids;
      NewIdsOfPresent(list, prev);
      assert ids[|ids| - 1] in ids;
    }
  }

  /** Repeating an assignment's append changes nothing. */
  lemma AppendAbsentIdempotent(list: seq<Id>, ids: seq<Id>)
    ensures AppendAbsent(AppendAbsent(list, ids), ids) == AppendAbsent(list, ids)
  {
    var once := AppendAbsent(list, ids);
    forall x | x in ids ensures x in once {
      AppendAbsentMembers(list, ids, x);
    }
    AppendAbsentIsNewIds(once, ids);
    NewIdsOfPresent(once, ids);
    assert once + [] == once;
  }

  // ----- the tenant check -----

  /** The users a sub-admin owns. */
  function Tenants(db: Db, subAdmin: Id): (r: set<Id>)
    ensures forall u :: u in r <==> u in db.users && db.users[u].subAdminId == Some(subAdmin)
  {
    set u | u in db.users && db.users[u].subAdminId == Some(subAdmin)
  }

  /** The tenant check: the query returns each matching user once, and its
      count must equal the number of requested ids. */
  predicate TenantCountMatches(db: Db, subAdmin: Id, ids: seq<Id>) {
    |Elements(ids) * Tenants(db, subAdmin)| == |ids|
  }

  /** The count comparison passes exactly when the request names distinct
      users, all of them owned by the sub-admin; in particular a request that
      repeats an id is refused. */
  lemma TenantCheckMeaning(db: Db, subAdmin: Id, ids: seq<Id>)
    ensures TenantCountMatches(db, subAdmin, ids) <==>
      Distinct(ids) && forall i :: 0 <= i < |ids| ==> ids[i] in Tenants(db, subAdmin)
  {
    var found := Elements(ids) * Tenants(db, subAdmin);
    ElementsCardinality(ids);
    if forall i :: 0 <= i < |ids| ==> ids[i] in Tenants(db, subAdmin) {
      assert found == Elements(ids);
    } else {
      var i :| 0 <= i < |ids| && ids[i] !in Tenants(db, subAdmin);
      var missing := Elements(ids) - Tenants(db, subAdmin);
      assert ids[i] in missing;
      assert Elements(ids) == found + missing;
      assert found !! missing;
      assert |Elements(ids)| == |found| + |missing|;
    }
  }

  // ----- handlers -----

  /** The body of an assignment request. */
  datatype AssignRequest = AssignRequest(subAdminId: Id, deviceId: Id, userIds: seq<Id>)

  /** The device is one the sub-admin owns. */
  predicate OwnsDevice(db: Db, subAdmin: Id, deviceId: Id) {
    deviceId in db.devices && db.devices[deviceId].owner == Some(subAdmin)
  }

  /** `assignDeviceToUser`: first the tenant check, then the ownership check,
      each answering 400 with nothing changed; on success the device's list
      grows by the requested ids it lacked, in request order. */
  function AssignDeviceToUsers(db: Db, req: AssignRequest): (r: Http)
    ensures r.events == []
    ensures !(Distinct(req.userIds) && forall i :: 0 <= i < |req.userIds| ==> req.userIds[i] in Tenants(db, req.subAdminId)) ==>
      r == Http(db, [], 400, ErrorBody("Some users are not under the specified Sub Admin account"))
    ensures (&& Distinct(req.userIds)
             && (forall i :: 0 <= i < |req.userIds| ==> req.userIds[i] in Tenants(db, req.subAdminId))
             && !OwnsDevice(db, req.subAdminId, req.deviceId)) ==>
      r == Http(db, [], 400, ErrorBody("Device not found or not associated with the specified Sub Admin"))
    ensures r.code == 200 ==>
      && OwnsDevice(db, req.subAdminId, req.deviceId)
      && (forall i :: 0 <= i < |req.userIds| ==> req.userIds[i] in Tenants(db, req.subAdminId))
      && var d := db.devices[req.deviceId];
        && r.db == db.(devices := db.devices[req.deviceId := d.(userIds := d.userIds + NewIds(d.userIds, req.userIds))])
        && r.body == DeviceBody(req.deviceId, r.db.devices[req.deviceId])
    ensures r.code != 200 ==> r.db == db
    ensures Valid(db) && OwnsDevice(db, req.subAdminId, req.deviceId) && TenantCountMatches(db, req.subAdminId, req.userIds) ==> r.code == 200
    ensures Valid(db) ==> Valid(r.db)
  {
    TenantCheckMeaning(db, req.subAdminId, req.userIds);
    if !TenantCountMatches(db, req.subAdminId, req.userIds) then
      Http(db, [], 400, ErrorBody("Some users are not under the specified Sub Admin account"))
    else if !OwnsDevice(db, req.subAdminId, req.deviceId) then
      Http(db, [], 400, ErrorBody("Device not found or not associated with the specified Sub Admin"))
    else
      var d := db.devices[req.deviceId];
      var updated := d.(userIds := AppendAbsent(d.userIds, req.userIds));
      AppendAbsentIsNewIds(d.userIds, req.userIds);
      match ValidateDevice(updated)
      case Err(_) => Http(db, [], 500, ErrorBody("Failed to assign device to user(s)"))
      case Ok(saved) =>
        var after := db.(devices := db.devices[req.deviceId := saved]);
        Http(after, [], 200, DeviceBody(req.deviceId, saved))
  }

  /** A successful assignment leaves every earlier entry where it was, holds
      each requested user and nothing else new, and adds no duplicate to a
      duplicate-free list. */
  lemma AssignmentKeepsEntries(db: Db, req: AssignRequest)
    requires AssignDeviceToUsers(db, req).code == 200
    ensures var before := db.devices[req.deviceId].userIds;
      var after := AssignDeviceToUsers(db, req).db.devices[req.deviceId].userIds;
      && |before| <= |after| && after[..|before|] == before
      && (forall x :: x in after <==> x in before || x in req.userIds)
      && (Distinct(before) ==> Distinct(after))
  {
    var before := db.devices[req.deviceId].userIds;
    AppendAbsentIsNewIds(before, req.userIds);
    if Distinct(before) {
      AppendAbsentKeepsDistinct(before, req.userIds);
    }
    forall x ensures x in AppendAbsent(before, req.userIds) <==> x in before || x in req.userIds {
      AppendAbsentMembers(before, req.userIds, x);
    }
  }

  /** Repeating a successful assignment succeeds again and changes nothing. */
  lemma AssignmentIdempotent(db: Db, req: AssignRequest)
    requires Valid(db)
    requires AssignDeviceToUsers(db, req).code == 200
    ensures var once := AssignDeviceToUsers(db, req);
      var twice := AssignDeviceToUsers(once.db, req);
      twice.code == 200 && twice.db == once.db
  {
    var once := AssignDeviceToUsers(db, req);
    var d := db.devices[req.deviceId];
    AppendAbsentIsNewIds(d.userIds, req.userIds);
    AppendAbsentIdempotent(d.userIds, req.userIds);
    var list := AppendAbsent(d.userIds, req.userIds);
    AppendAbsentIsNewIds(list, req.userIds);
    assert once.db.users == db.users;
    TenantCheckMeaning(db, req.subAdminId, req.userIds);
    TenantCheckMeaning(once.db, req.subAdminId, req.userIds);
    assert once.db.devices[req.deviceId].userIds == list;
    assert OwnsDevice(once.db, req.subAdminId, req.deviceId);
    var twice := AssignDeviceToUsers(once.db, req);
    assert twice.code == 200;
    assert once.db.devices == once.db.devices[req.deviceId := once.db.devices[req.deviceId]];
  }

  /** An empty request passes both checks for an owned device and changes nothing. */
  lemma EmptyAssignmentChangesNothing(db: Db, subAdmin: Id, deviceId: Id)
    requires Valid(db) && OwnsDevice(db, subAdmin, deviceId)
    ensures var r := AssignDeviceToUsers(db, AssignRequest(subAdmin, deviceId, []));
      r.code == 200 && r.db == db
  {
    var d := db.devices[deviceId];
    assert d.(userIds := d.userIds + []) == d;
    assert db.devices[deviceId := d] == db.devices;
  }

  /** The body of a registration request; `deviceName` is not a path of the
      device schema and so never reaches the document. */
  datatype RegisterRequest = RegisterRequest(subAdminId: Option<Id>, deviceName: Option<string>)

  /** The requester is a stored sub-admin. */
  predicate IsSubAdmin(db: Db, requester: Option<Id>) {
    requester.Some? && requester.value in db.users && db.users[requester.value].role == SubAdmin
  }

  /** The document registration builds: owned by the requester, with no
      assigned users and, as written, no phone number. */
  function RegistrationDraft(requester: Id, phoneNumber: Option<string>): (d: Device)
    ensures d.owner == Some(requester) && d.userIds == []
    ensures d.phoneNumber == phoneNumber && d.model.None? && d.sim.None?
  {
    Device(None, None, phoneNumber, Some(requester), [])
  }

  /** `registerDevice` as written: a requester that is missing or not a
      sub-admin gets 403; for a sub-admin the document lacks the required
      phone number, so the save fails and the answer is 500. No device is
      ever created. */
  function RegisterDevice(db: Db, req: RegisterRequest, newId: Id): (r: Http)
    ensures r.db == db && r.events == []
    ensures !IsSubAdmin(db, req.subAdminId) ==>
      r.code == 403 && r.body == ErrorBody("Only sub_admins can register devices")
    ensures IsSubAdmin(db, req.subAdminId) ==>
      r.code == 500 && r.body == ErrorBody("Failed to register device")
  {
    if !IsSubAdmin(db, req.subAdminId) then
      Http(db, [], 403, ErrorBody("Only sub_admins can register devices"))
    else
      match ValidateDevice(RegistrationDraft(req.subAdminId.value, None))
      case Err(_) => Http(db, [], 500, ErrorBody("Failed to register device"))
      case Ok(d) => Http(db.(devices := db.devices[newId := d]), [], 201, DeviceBody(newId, d))
  }

  /** Registration with the phone number supplied: a sub-admin gets a new
      device it owns with an empty list, unless the id or the phone number is
      taken or the number is empty. */
  function RegisterDeviceWithPhone(db: Db, req: RegisterRequest, phoneNumber: string, newId: Id): (r: Http)
    ensures r.events == []
    ensures !IsSubAdmin(db, req.subAdminId) ==>
      r == Http(db, [], 403, ErrorBody("Only sub_admins can register devices"))
    ensures r.code == 201 <==>
      && IsSubAdmin(db, req.subAdminId) && phoneNumber != "" && newId !in db.devices
      && forall d :: d in db.devices ==> db.devices[d].phoneNumber != Some(phoneNumber)
    ensures r.code == 201 ==>
      && newId in r.db.devices
      && r.db.devices == db.devices[newId := r.db.devices[newId]]
      && r.db.devices[newId].owner == req.subAdminId && r.db.devices[newId].userIds == []
      && r.db.devices[newId].phoneNumber == Some(phoneNumber)
      && r.db.messages == db.messages && r.db.users == db.users
    ensures r.code != 201 ==> r.db == db
    ensures Valid(db) ==> Valid(r.db)
  {
    if !IsSubAdmin(db, req.subAdminId) then
      Http(db, [], 403, ErrorBody("Only sub_admins can register devices"))
    else
      match ValidateDevice(RegistrationDraft(req.subAdminId.value, Some(phoneNumber)))
      case Err(_) => Http(db, [], 500, ErrorBody("Failed to register device"))
      case Ok(d) =>
        if newId in db.devices || exists other :: other in db.devices && db.devices[other].phoneNumber == Some(phoneNumber) then
          Http(db, [], 500, ErrorBody("Failed to register device"))
        else
          Http(db.(devices := db.devices[newId := d]), [], 201, DeviceBody(newId, d))
  }

  /** As written, no sub-admin can register a device, while the same request
      with a fresh phone number succeeds. */
  lemma RegistrationAlwaysFails(db: Db, req: RegisterRequest, newId: Id, phoneNumber: string)
    requires IsSubAdmin(db, req.subAdminId) && phoneNumber != "" && newId !in db.devices
    requires forall d :: d in db.devices ==> db.devices[d].phoneNumber != Some(phoneNumber)
    ensures RegisterDevice(db, req, newId).code == 500
    ensures RegisterDeviceWithPhone(db, req, phoneNumber, newId).code == 201
  {
  }
}

=== FILE: device_model.dfy ===
/** The device document: an owning sub-admin, the users assigned to it, and
    a required, unique phone number. */
module DeviceModel {
  import opened Common

  /** A device document. `owner` is the `userId` path (the owning sub-admin)
      and `userIds` the assigned users. */
  datatype Device = Device(
    model: Option<string>,
    sim: Option<string>,
    phoneNumber: Option<string>,
    owner: Option<Id>,
    userIds: seq<Id>)

  /** The `required` validators: a non-empty phone number and an owner. */
  predicate Conforms(d: Device) {
    Truthy(d.phoneNumber) && d.owner.Some?
  }

  /** The validation a save runs on a device document. */
  function ValidateDevice(d: Device): (r: Result<Device>)
    ensures r.Ok? <==> Conforms(d)
    ensures r.Ok? ==> r.value == d
  {
    if !Truthy(d.phoneNumber) then Err(Validation("phoneNumber"))
    else if d.owner.None? then Err(Validation("userId"))
    else Ok(d)
  }

  /** The unique index on `phoneNumber`. */
  predicate UniquePhones(devices: map<Id, Device>) {
    forall a, b :: a in devices && b in devices && a != b ==> devices[a].phoneNumber != devices[b].phoneNumber
  }
}

=== FILE: lifecycle.dfy ===
/** How the handlers compose over a message's life: which messages the
    pending query can see after a send, a socket message or a setter. */
module Lifecycle {
  import opened Common
  import opened MessageModel
  import opened Relay
  import MessageController
  import Server

  /** The ids the pending query reports. */
  function PendingIds(db: Db): (r: set<Id>)
    ensures forall id :: id in r <==> id in db.messages && db.messages[id].status == Pending
  {
    Server.OnGetPendingMessages(db).events[0].messages.Keys
  }

  /** Between its two saves a sent message is pending and the pending query
      reports it; once the send completes, successful or not, the query no
      longer reports it, and the other messages are reported as before. */
  lemma SendLeavesPendingSet(db: Db, req: MessageController.SendRequest, newId: Id, transportOk: bool)
    requires MessageController.SavePending(db, req, newId).Ok?
    ensures newId in PendingIds(MessageController.SavePending(db, req, newId).value)
    ensures PendingIds(MessageController.SendMessage(db, req, newId, transportOk).db) == PendingIds(db)
  {
    var after := MessageController.SendMessage(db, req, newId, transportOk).db;
    assert newId !in PendingIds(after);
    forall id ensures id in PendingIds(after) <==> id in PendingIds(db) {
      if id != newId && id in db.messages {
        assert after.messages[id] == db.messages[id];
      }
    }
  }

  /** A message created over the socket is stored as sent, so the pending
      query never reports it. */
  lemma SocketMessageNeverPending(db: Db, data: Server.MessageData, newId: Id, isObjectId: string -> bool)
    requires Server.SocketDraft(data, isObjectId).Ok? && newId !in db.messages
    ensures var after := Server.OnMessage(db, data, newId, isObjectId).db;
      newId in after.messages && newId !in PendingIds(after)
  {
  }

  /** No setter, HTTP or socket, leaves its target in the pending set: each
      writes a status other than pending, and an unknown id stays unknown. */
  lemma SettersNeverReintroducePending(db: Db, messageId: Id)
    ensures messageId !in PendingIds(MessageController.SetMessageDelivered(db, messageId).db)
    ensures messageId !in PendingIds(MessageController.SetMessageRead(db, messageId).db)
    ensures messageId !in PendingIds(MessageController.SetMessageFailed(db, messageId).db)
    ensures messageId !in PendingIds(Server.OnMessageDelivered(db, messageId).db)
    ensures messageId !in PendingIds(Server.OnMessageRead(db, messageId).db)
  {
  }

  /** The HTTP and socket read handlers store the same thing; only the
      notifications differ (a broadcast against the owner's room). */
  lemma ReadHandlersAgreeOnStore(db: Db, messageId: Id)
    ensures MessageController.SetMessageRead(db, messageId).db == Server.OnMessageRead(db, messageId).db
  {
  }
}

=== FILE: message_controller.dfy ===
/** The HTTP message handlers: sending a message through the transport,
    the three status setters, and the role-filtered message listing. */
module MessageController {
  import opened Common
  import opened MessageModel
  import opened Relay

  /** The body of a send request. */
  datatype SendRequest = SendRequest(
    sender: Option<string>, receiver: Option<string>, content: Option<string>,
    userId: Option<Id>, deviceId: Option<Id>)

  /** The document a send request builds: pending, CRM origin, no thread. */
  function PendingDraft(req: SendRequest): (r: Result<Message>)
    ensures r.Ok? <==> Truthy(req.sender) && Truthy(req.receiver) && Truthy(req.content)
    ensures r.Ok? ==> r.value.status == Pending && r.value.origin == CRM && r.value.threadId.None?
    ensures r.Ok? ==> r.value == Message(req.sender, req.receiver, req.content, Pending, req.userId, req.deviceId, None, CRM)
  {
    NewMessage(req.sender, req.receiver, req.content, Some(Pending), req.userId, req.deviceId, None, None)
  }

  /** The first save of a send: the new message is stored as pending and
      nothing else in the database changes. */
  function SavePending(db: Db, req: SendRequest, newId: Id): (r: Result<Db>)
    ensures r.Ok? <==> PendingDraft(req).Ok? && newId !in db.messages
    ensures r.Ok? ==>
      && r.value.messages == db.messages[newId := PendingDraft(req).value]
      && r.value.messages[newId].status == Pending
      && r.value.users == db.users && r.value.devices == db.devices
  {
    match PendingDraft(req)
    case Err(f) => Err(f)
    case Ok(m) => InsertMessage(db, newId, m)
  }

  /** The status a transport outcome resolves to. */
  function Outcome(transportOk: bool): (s: Status)
    ensures s == Sent || s == Failed
    ensures s == Sent <==> transportOk
  {
    if transportOk then Sent else Failed
  }

  /** `sendMessage`: store the message as pending, apply the transport outcome
      (an input here; `simulateSendMessage` draws it at random), save it, and broadcast exactly
      one status update carrying the status just persisted. A rejected first
      save answers 500 and changes and emits nothing. */
  function SendMessage(db: Db, req: SendRequest, newId: Id, transportOk: bool): (r: Http)
    ensures SavePending(db, req, newId).Err? ==>
      r == Http(db, [], 500, ErrorBody("Failed to send message"))
    ensures SavePending(db, req, newId).Ok? ==>
      && newId !in db.messages
      && r.code == 201
      && r.db.messages.Keys == db.messages.Keys + {newId}
      && (forall id :: id in db.messages ==> r.db.messages[id] == db.messages[id])
      && r.db.messages[newId] == PendingDraft(req).value.(status := Outcome(transportOk))
      && r.db.users == db.users && r.db.devices == db.devices
      && r.events == [MessageStatusUpdate(Everyone, newId, r.db.messages[newId].status)]
      && r.body == MessageBody(newId, r.db.messages[newId])
    ensures Valid(db) ==> Valid(r.db)
  {
    match SavePending(db, req, newId)
    case Err(_) => Http(db, [], 500, ErrorBody("Failed to send message"))
    case Ok(saved) =>
      var after := UpdateStatus(saved, newId, Outcome(transportOk));
      var m := after.messages[newId];
      Http(after, [MessageStatusUpdate(Everyone, newId, m.status)], 201, MessageBody(newId, m))
  }

  /** A send never leaves its message pending, delivered or read: it ends
      sent exactly when the transport succeeded and failed otherwise. */
  lemma SendResolvesToSentOrFailed(db: Db, req: SendRequest, newId: Id, transportOk: bool)
    requires SavePending(db, req, newId).Ok?
    ensures var s := SendMessage(db, req, newId, transportOk).db.messages[newId].status;
      (s == Sent <==> transportOk) && (s == Failed <==> !transportOk)
  {
  }

  /** A send is its first save followed by the outcome's status update: the
      message passes through `pending` before it is resolved. */
  lemma SendIsPendingThenResolved(db: Db, req: SendRequest, newId: Id, transportOk: bool)
    requires SavePending(db, req, newId).Ok?
    ensures SavePending(db, req, newId).value.messages[newId].status == Pending
    ensures SendMessage(db, req, newId, transportOk).db ==
      UpdateStatus(SavePending(db, req, newId).value, newId, Outcome(transportOk))
  {
  }

  /** The three status setters share one behaviour: look the message up,
      answer 404 and emit nothing when it is unknown, otherwise overwrite its
      status with `target` whatever it was, and broadcast one update. */
  function SetMessageStatus(db: Db, messageId: Id, target: Status): (r: Http)
    ensures messageId !in db.messages ==> r == Http(db, [], 404, ErrorBody("Message not found"))
    ensures messageId in db.messages ==>
      && r.code == 200
      && r.db.messages.Keys == db.messages.Keys
      && r.db.messages[messageId] == db.messages[messageId].(status := target)
      && (forall id :: id in db.messages && id != messageId ==> r.db.messages[id] == db.messages[id])
      && r.db.users == db.users && r.db.devices == db.devices
      && r.events == [MessageStatusUpdate(Everyone, messageId, target)]
      && r.body == MessageBody(messageId, r.db.messages[messageId])
    ensures Valid(db) ==> Valid(r.db)
  {
    if messageId !in db.messages then Http(db, [], 404, ErrorBody("Message not found"))
    else
      var after := UpdateStatus(db, messageId, target);
      Http(after, [MessageStatusUpdate(Everyone, messageId, target)], 200, MessageBody(messageId, after.messages[messageId]))
  }

  /** `setMessageDelivered`. */
  function SetMessageDelivered(db: Db, messageId: Id): (r: Http)
    ensures messageId !in db.messages <==> r.code == 404
    ensures messageId !in db.messages ==> r.db == db && r.events == []
    ensures messageId in db.messages ==>
      messageId in r.db.messages && r.db.messages[messageId].status == Delivered && r.events == [MessageStatusUpdate(Everyone, messageId, Delivered)]
  {
    SetMessageStatus(db, messageId, Delivered)
  }

  /** `setMessageRead`: stores `read`, which the schema does not declare. */
  function SetMessageRead(db: Db, messageId: Id): (r: Http)
    ensures messageId !in db.messages <==> r.code == 404
    ensures messageId !in db.messages ==> r.db == db && r.events == []
    ensures messageId in db.messages ==>
      && messageId in r.db.messages && r.db.messages[messageId].status == Read
      && !Declared(r.db.messages[messageId].status)
      && r.events == [MessageStatusUpdate(Everyone, messageId, Read)]
  {
    SetMessageStatus(db, messageId, Read)
  }

  /** `setMessageFailed`. */
  function SetMessageFailed(db: Db, messageId: Id): (r: Http)
    ensures messageId !in db.messages <==> r.code == 404
    ensures messageId !in db.messages ==> r.db == db && r.events == []
    ensures messageId in db.messages ==>
      messageId in r.db.messages && r.db.messages[messageId].status == Failed && r.events == [MessageStatusUpdate(Everyone, messageId, Failed)]
  {
    SetMessageStatus(db, messageId, Failed)
  }

  /** Setting a status twice is the same as setting it once: the setters are
      idempotent, and the second call emits the same single update. */
  lemma SetStatusIdempotent(db: Db, messageId: Id, target: Status)
    requires messageId in db.messages
    ensures var once := SetMessageStatus(db, messageId, target);
      SetMessageStatus(once.db, messageId, target).db == once.db
  {
    var once := SetMessageStatus(db, messageId, target);
    var twice := SetMessageStatus(once.db, messageId, target);
    assert twice.db.messages == once.db.messages;
  }

  /** The last setter wins: no transition is refused, so any status can be
      overwritten by any other, including moving back from `read`. */
  lemma LastSetterWins(db: Db, messageId: Id, first: Status, second: Status)
    requires messageId in db.messages
    ensures SetMessageStatus(SetMessageStatus(db, messageId, first).db, messageId, second).db
         == SetMessageStatus(db, messageId, second).db
  {
    var a := SetMessageStatus(SetMessageStatus(db, messageId, first).db, messageId, second).db;
    var b := SetMessageStatus(db, messageId, second).db;
    assert a.messages == b.messages;
  }

  // ----- listing -----

  /** Messages a sub-admin may see: those owned by a user whose `subAdminId`
      is the sub-admin. */
  predicate VisibleToSubAdmin(db: Db, subAdmin: Id, m: Message) {
    m.userId.Some? && m.userId.value in db.users && db.users[m.userId.value].subAdminId == Some(subAdmin)
  }

  /** Messages any other requester may see: its own, on a device whose owner
      field (not the assigned users) is the requester. */
  predicate VisibleToOwnerOfDevice(db: Db, requester: Id, m: Message) {
    m.userId == Some(requester) && m.deviceId.Some? && m.deviceId.value in db.devices
    && db.devices[m.deviceId.value].owner == Some(requester)
  }

  /** `getAllMessages` as it would run with the user and device models
      imported: it collects the sub-admin's users, or the requester's devices,
      and then filters the messages by them. */
  function GetAllMessages(db: Db, userId: Id, role: Option<string>): (r: Http)
    ensures r.db == db && r.events == [] && r.code == 200 && r.body.MessagesBody?
    ensures role == Some("super_admin") ==> r.body.messages == db.messages
    ensures role == Some("sub_admin") ==>
      forall id :: id in r.body.messages <==> id in db.messages && VisibleToSubAdmin(db, userId, db.messages[id])
    ensures role != Some("super_admin") && role != Some("sub_admin") ==>
      forall id :: id in r.body.messages <==> id in db.messages && VisibleToOwnerOfDevice(db, userId, db.messages[id])
    ensures forall id :: id in r.body.messages ==> id in db.messages && r.body.messages[id] == db.messages[id]
  {
    if role == Some("super_admin") then
      Http(db, [], 200, MessagesBody(db.messages))
    else if role == Some("sub_admin") then
      var underSubAdmin := set u | u in db.users && db.users[u].subAdminId == Some(userId);
      var mine := map id | id in db.messages && db.messages[id].userId.Some? && db.messages[id].userId.value in underSubAdmin :: db.messages[id];
      Http(db, [], 200, MessagesBody(mine))
    else
      var owned := set d | d in db.devices && db.devices[d].owner == Some(userId);
      var mine := map id | id in db.messages && db.messages[id].userId == Some(userId) && db.messages[id].deviceId.Some? && db.messages[id].deviceId.value in owned :: db.messages[id];
      Http(db, [], 200, MessagesBody(mine))
  }

  /** `getAllMessages` as written: the handler's module imports only the
      message model, so the sub-admin and regular-user branches reach an
      undefined `User` or `Device` and answer 500. */
  function GetAllMessagesAsWritten(db: Db, userId: Id, role: Option<string>): (r: Http)
    ensures r.db == db && r.events == []
    ensures role == Some("super_admin") ==> r.code == 200 && r.body == MessagesBody(db.messages)
    ensures role != Some("super_admin") ==> r.code == 500 && r.body == ErrorBody("Failed to retrieve messages")
  {
    if role == Some("super_admin") then Http(db, [], 200, MessagesBody(db.messages))
    else Http(db, [], 500, ErrorBody("Failed to retrieve messages"))
  }

  /** As written, a sub-admin never gets its tenant's messages, even when
      the corrected listing has some for it. */
  lemma SubAdminListingFails(db: Db, subAdmin: Id, id: Id)
    requires id in db.messages && VisibleToSubAdmin(db, subAdmin, db.messages[id])
    ensures GetAllMessagesAsWritten(db, subAdmin, Some("sub_admin")).code == 500
    ensures id in GetAllMessages(db, subAdmin, Some("sub_admin")).body.messages
  {
  }

  /** Every sub-admin sees every message a regular user of its tenant sees:
      the second filter is narrower than the first whenever the requester
      belongs to the sub-admin. */
  lemma TenantSeesUsersMessages(db: Db, subAdmin: Id, requester: Id)
    requires requester in db.users && db.users[requester].subAdminId == Some(subAdmin)
    ensures GetAllMessages(db, requester, Some("user")).body.messages.Keys
         <= GetAllMessages(db, subAdmin, Some("sub_admin")).body.messages.Keys
  {
  }

  /** Since the regular-user filter matches the device owner field, a
      requester that owns no device sees nothing, whatever devices it has been
      assigned to. */
  lemma UnownedDevicesHideMessages(db: Db, requester: Id)
    requires forall d :: d in db.devices ==> db.devices[d].owner != Some(requester)
    ensures GetAllMessages(db, requester, Some("user")).body.messages == map[]
  {
  }
}

=== FILE: message_model.dfy ===
/** The message document: its fields, the status and origin enumerations,
    the defaults, and the validation a save performs. */
module MessageModel {
  import opened Common

  /** Every status the relay writes. `Read` is written by the read handlers
      although the schema's enumeration does not list it. */
  datatype Status = Pending | Sent | Failed | Delivered | Read

  /** The statuses the schema's enumeration admits. */
  predicate Declared(s: Status) {
    s in {Pending, Sent, Failed, Delivered}
  }

  /** The channel a message came from. */
  datatype Origin = CRM | API | Web | Android | WebSocket

  function OriginName(o: Origin): string {
    match o
    case CRM => "CRM"
    case API => "API"
    case Web => "Web"
    case Android => "Android"
    case WebSocket => "WebSocket"
  }

  /** The enumeration check for `origin`: only the five names are accepted. */
  function ParseOrigin(s: string): (r: Option<Origin>)
    ensures r.Some? ==> OriginName(r.value) == s
    ensures r.None? ==> forall o: Origin :: OriginName(o) != s
  {
    if s == "CRM" then Some(CRM)
    else if s == "API" then Some(API)
    else if s == "Web" then Some(Web)
    else if s == "Android" then Some(Android)
    else if s == "WebSocket" then Some(WebSocket)
    else None
  }

  /** A message document. `sender`, `receiver` and `content` are required
      strings and stay optional here because a document exists before the
      save validates it. `threadId` is computed by the reply logic although
      the schema declares no such path. */
  datatype Message = Message(
    sender: Option<string>,
    receiver: Option<string>,
    content: Option<string>,
    status: Status,
    userId: Option<Id>,
    deviceId: Option<Id>,
    threadId: Option<Id>,
    origin: Origin)

  /** The `required` validators: the three strings are present and non-empty. */
  predicate HasRequired(m: Message) {
    Truthy(m.sender) && Truthy(m.receiver) && Truthy(m.content)
  }

  /** Constructing a message document and validating it as a save does:
      `status` defaults to pending and must be declared, `origin` defaults to
      CRM and must be one of the five names, and the required strings must be
      non-empty. */
  function NewMessage(
    sender: Option<string>, receiver: Option<string>, content: Option<string>,
    status: Option<Status>, userId: Option<Id>, deviceId: Option<Id>,
    threadId: Option<Id>, origin: Option<string>): (r: Result<Message>)
    ensures r.Ok? <==>
      && Truthy(sender) && Truthy(receiver) && Truthy(content)
      && (status.None? || Declared(status.value))
      && (origin.None? || ParseOrigin(origin.value).Some?)
    ensures r.Ok? ==>
      && HasRequired(r.value)
      && Declared(r.value.status)
      && r.value.sender == sender && r.value.receiver == receiver
      && r.value.content == content
      && r.value.userId == userId && r.value.deviceId == deviceId
      && r.value.threadId == threadId
      && (status.None? ==> r.value.status == Pending)
      && (status.Some? ==> r.value.status == status.value)
      && (origin.None? ==> r.value.origin == CRM)
      && (origin.Some? ==> OriginName(r.value.origin) == origin.value)
  {
    var st := if status.None? then Pending else status.value;
    var parsed := if origin.None? then Some(CRM) else ParseOrigin(origin.value);
    if !Truthy(sender) then Err(Validation("sender"))
    else if !Truthy(receiver) then Err(Validation("receiver"))
    else if !Truthy(content) then Err(Validation("content"))
    else if !Declared(st) then Err(Validation("status"))
    else if parsed.None? then Err(Validation("origin"))
    else Ok(Message(sender, receiver, content, st, userId, deviceId, threadId, parsed.value))
  }

  /** Parsing inverts naming, so each origin is accepted under its own name. */
  lemma OriginRoundTrip(o: Origin)
    ensures ParseOrigin(OriginName(o)) == Some(o)
  {
  }

  /** `read` is the one status the code writes that the schema does not declare. */
  lemma OnlyReadUndeclared(s: Status)
    ensures !Declared(s) <==> s == Read
  {
  }
}

=== FILE: relay.dfy ===
/** The state the handlers share: the three collections, the notifications
    they emit, and the replies the HTTP handlers send. */
module Relay {
  import opened Common
  import opened MessageModel
  import opened UserModel
  import opened DeviceModel

  /** The database: each collection maps document ids to documents. */
  datatype Db = Db(messages: map<Id, Message>, users: map<Id, User>, devices: map<Id, Device>)

  /** What the stored collections keep: every document passed its required
      validators when it was saved, and the unique indexes hold. Status
      updates skip validation, so the status enumeration is not part of it. */
  predicate Valid(db: Db) {
    && (forall id :: id in db.messages ==> HasRequired(db.messages[id]))
    && (forall id :: id in db.users ==> Truthy(db.users[id].email))
    && UniqueEmails(db.users)
    && (forall id :: id in db.devices ==> Conforms(db.devices[id]))
    && UniquePhones(db.devices)
  }

  /** Where an event goes: one identity's room, every connected client, or
      only the socket that raised the event being handled. */
  datatype Target = Room(name: Id) | Everyone | Caller

  /** The notifications the handlers publish. `DocumentBroadcast` stands for
      the broadcast whose event name is not a string and whose payload is the
      saved document. */
  datatype Event =
    | MessageSent(to: Target, messageId: Id, status: Status)
    | MessageStatusUpdate(to: Target, messageId: Id, status: Status)
    | NewReply(to: Target, messageId: Id, reply: Message)
    | AllMessages(to: Target, messages: map<Id, Message>)
    | PendingMessages(to: Target, messages: map<Id, Message>)
    | Error(to: Target, text: string)
    | DocumentBroadcast(to: Target, messageId: Id)

  /** The token payload a login signs. */
  datatype Token = Token(userId: Id, role: Role)

  /** The JSON body of an HTTP reply. */
  datatype Body =
    | MessageBody(id: Id, message: Message)
    | MessagesBody(messages: map<Id, Message>)
    | UserBody(id: Id, user: User)
    | DeviceBody(id: Id, device: Device)
    | TokenBody(token: Token)
    | ErrorBody(error: string)

  /** The outcome of a socket handler: the new database and what it emitted. */
  datatype Step = Step(db: Db, events: seq<Event>)

  /** The outcome of an HTTP handler: also the status code and body. */
  datatype Http = Http(db: Db, events: seq<Event>, code: int, body: Body)

  /** The targets of the `messageSent` events, in emission order. */
  function SentTargets(events: seq<Event>): (r: seq<Target>)
    ensures |r| <= |events|
  {
    if events == [] then []
    else (if events[0].MessageSent? then [events[0].to] else []) + SentTargets(events[1..])
  }

  /** The texts of the `error` events, in emission order. */
  function ErrorTexts(events: seq<Event>): (r: seq<string>)
    ensures |r| <= |events|
  {
    if events == [] then []
    else (if events[0].Error? then [events[0].text] else []) + ErrorTexts(events[1..])
  }

  /** Saving a new message under `id`: refused when the id is taken. */
  function InsertMessage(db: Db, id: Id, m: Message): (r: Result<Db>)
    ensures r.Ok? <==> id !in db.messages
    ensures r.Ok? ==> r.value.messages == db.messages[id := m]
    ensures r.Ok? ==> r.value.users == db.users && r.value.devices == db.devices
  {
    if id in db.messages then Err(DuplicateKey("_id"))
    else Ok(db.(messages := db.messages[id := m]))
  }

  /** An update of one message's status, with no validation of the value. */
  function UpdateStatus(db: Db, id: Id, s: Status): (r: Db)
    requires id in db.messages
    ensures r.messages.Keys == db.messages.Keys
    ensures r.messages[id].status == s
    ensures r.messages[id] == db.messages[id].(status := s)
    ensures forall other :: other in db.messages && other != id ==> r.messages[other] == db.messages[other]
    ensures r.users == db.users && r.devices == db.devices
  {
    db.(messages := db.messages[id := db.messages[id].(status := s)])
  }
}

=== FILE: server.dfy ===
/** The socket event handlers: fetching messages, creating a message and
    telling the right rooms, replying within a thread, marking messages
    delivered or read, and fetching pending messages. */
module Server {
  import opened Common
  import opened MessageModel
  import opened UserModel
  import opened Relay
  import MessageController

  // ----- getAllMessages -----

  /** The payload of `getAllMessages`; a missing payload has neither field. */
  datatype FetchRequest = FetchRequest(userId: Option<string>, role: Option<string>)

  /** A message concerns a requester when the requester owns it or is its receiver. */
  predicate Concerns(m: Message, requester: Id) {
    m.userId == Some(requester) || m.receiver == Some(requester)
  }

  /** `getAllMessages`: without both fields the caller gets an error and no
      query runs; a super-admin gets every message; anyone else gets exactly
      the messages that concern it. The database never changes. */
  function OnGetAllMessages(db: Db, req: FetchRequest): (r: Step)
    ensures r.db == db && |r.events| == 1
    ensures !Truthy(req.userId) || !Truthy(req.role) ==>
      r.events == [Error(Caller, "User ID and role are required to fetch messages")]
    ensures Truthy(req.userId) && req.role == Some("super_admin") ==>
      r.events == [AllMessages(Caller, db.messages)]
    ensures Truthy(req.userId) && Truthy(req.role) && req.role != Some("super_admin") ==>
      && r.events[0].AllMessages? && r.events[0].to == Caller
      && (forall id :: id in r.events[0].messages <==> id in db.messages && Concerns(db.messages[id], req.userId.value))
      && (forall id :: id in r.events[0].messages ==> r.events[0].messages[id] == db.messages[id])
  {
    if !Truthy(req.userId) || !Truthy(req.role) then
      Step(db, [Error(Caller, "User ID and role are required to fetch messages")])
    else if req.role.value == "super_admin" then
      Step(db, [AllMessages(Caller, db.messages)])
    else
      var requester := req.userId.value;
      var mine := map id | id in db.messages && (db.messages[id].userId == Some(requester) || db.messages[id].receiver == Some(requester)) :: db.messages[id];
      Step(db, [AllMessages(Caller, mine)])
  }

  /** The socket listing and the corrected HTTP listing agree for a
      super-admin, and for any other role but a sub-admin the HTTP listing is
      the narrower one: a message on a device the requester owns is one the
      requester owns, so it concerns the requester. */
  lemma ListingsAgree(db: Db, requester: Id, role: string)
    requires requester != "" && role != ""
    ensures var http := MessageController.GetAllMessages(db, requester, Some(role)).body.messages;
      var socket := OnGetAllMessages(db, FetchRequest(Some(requester), Some(role))).events[0].messages;
      && (role == "super_admin" ==> http == socket == db.messages)
      && (role != "super_admin" && role != "sub_admin" ==>
            http.Keys <= socket.Keys && forall id :: id in http ==> http[id] == socket[id])
  {
  }

  // ----- message -----

  /** The payload of a `message` event. `deviceId` is whatever the client
      sent and is kept only when it is a well-formed object id. */
  datatype MessageData = MessageData(
    sender: Option<string>, receiver: Option<string>, content: Option<string>,
    userId: Option<Id>, deviceId: Option<string>, threadId: Option<Id>, origin: Option<string>)

  /** The document a `message` event builds: status sent, receiver
      defaulting to "Unknown", origin to CRM, thread to null, and the device
      dropped unless `isObjectId` accepts it. */
  function SocketDraft(data: MessageData, isObjectId: string -> bool): (r: Result<Message>)
    ensures r.Ok? <==> Truthy(data.sender) && Truthy(data.content) && ParseOrigin(OrElse(data.origin, "CRM")).Some?
    ensures r.Ok? ==>
      && r.value.status == Sent
      && r.value.sender == data.sender && r.value.content == data.content
      && r.value.userId == data.userId
      && (Truthy(data.receiver) ==> r.value.receiver == data.receiver)
      && (!Truthy(data.receiver) ==> r.value.receiver == Some("Unknown"))
      && (Truthy(data.origin) ==> OriginName(r.value.origin) == data.origin.value)
      && (!Truthy(data.origin) ==> r.value.origin == CRM)
      && (r.value.threadId.Some? <==> Truthy(data.threadId))
      && (r.value.threadId.Some? ==> r.value.threadId == data.threadId)
      && (r.value.deviceId.Some? <==> data.deviceId.Some? && isObjectId(data.deviceId.value))
      && (r.value.deviceId.Some? ==> r.value.deviceId == data.deviceId)
  {
    var deviceId := if data.deviceId.Some? && isObjectId(data.deviceId.value) then data.deviceId else None;
    NewMessage(data.sender, Some(OrElse(data.receiver, "Unknown")), data.content, Some(Sent),
               data.userId, deviceId, Present(data.threadId), Some(OrElse(data.origin, "CRM")))
  }

  /** The sub-admin a user's `subAdminId` resolves to once populated: none
      when the reference is null or names no stored user. */
  function ResolvedSubAdmin(users: map<Id, User>, uid: Id): (r: Option<Id>)
    requires uid in users
    ensures r.Some? <==> users[uid].subAdminId.Some? && users[uid].subAdminId.value in users
    ensures r.Some? ==> r == users[uid].subAdminId
  {
    match users[uid].subAdminId
    case None => None
    case Some(s) => if s in users then Some(s) else None
  }

  /** The rooms told about a new message, one event each and in this order,
      for a sender found among the users: the sender and its sub-admin, the
      sender alone when it is a sub-admin without one, otherwise nobody. */
  function SentRooms(users: map<Id, User>, uid: Id): (r: seq<Id>)
    requires uid in users
    ensures |r| <= 2
    ensures forall room :: room in r ==> room == uid || Some(room) == users[uid].subAdminId
    ensures uid in r <==> ResolvedSubAdmin(users, uid).Some? || users[uid].role == SubAdmin
    ensures ResolvedSubAdmin(users, uid).Some? ==> ResolvedSubAdmin(users, uid).value in r
  {
    match ResolvedSubAdmin(users, uid)
    case Some(s) => [uid, s]
    case None => if users[uid].role == SubAdmin then [uid] else []
  }

  function SentEvents(rooms: seq<Id>, messageId: Id): (r: seq<Event>)
    ensures |r| == |rooms|
    ensures forall i :: 0 <= i < |rooms| ==> r[i] == MessageSent(Room(rooms[i]), messageId, Sent)
  {
    if rooms == [] then [] else [MessageSent(Room(rooms[0]), messageId, Sent)] + SentEvents(rooms[1..], messageId)
  }

  const SaveFailed := "Failed to save message"

  /** `message`: build and save the document; on a failed save the caller
      gets an error and nothing is stored. After the save, a missing `userId`
      breaks the broadcast and an unknown one breaks the audience lookup: the
      caller then gets the same error although the message stays stored.
      Otherwise `messageSent` goes to the sender's room and its sub-admin's
      room (or the sender's room only for a sub-admin with none). */
  function OnMessage(db: Db, data: MessageData, newId: Id, isObjectId: string -> bool): (r: Step)
    ensures SocketDraft(data, isObjectId).Err? || newId in db.messages ==>
      r == Step(db, [Error(Caller, SaveFailed)])
    ensures SocketDraft(data, isObjectId).Ok? && newId !in db.messages ==>
      r.db == db.(messages := db.messages[newId := SocketDraft(data, isObjectId).value])
    ensures forall e :: e in r.events && e.MessageSent? ==> e.messageId == newId && e.status == Sent
    ensures SocketDraft(data, isObjectId).Ok? && newId !in db.messages ==>
      && (data.userId.None? || data.userId.value !in db.users ==>
            SentTargets(r.events) == [] && ErrorTexts(r.events) == [SaveFailed])
      && (data.userId.Some? && data.userId.value in db.users ==> ErrorTexts(r.events) == [])
      && (data.userId.Some? && data.userId.value in db.users && ResolvedSubAdmin(db.users, data.userId.value).Some? ==>
            SentTargets(r.events) == [Room(data.userId.value), Room(ResolvedSubAdmin(db.users, data.userId.value).value)])
      && (data.userId.Some? && data.userId.value in db.users && ResolvedSubAdmin(db.users, data.userId.value).None? ==>
            SentTargets(r.events) == (if db.users[data.userId.value].role == SubAdmin then [Room(data.userId.value)] else []))
    ensures SocketDraft(data, isObjectId).Ok? && newId !in db.messages ==>
      && (data.userId.None? ==> r.events == [Error(Caller, SaveFailed)])
      && (data.userId.Some? && data.userId.value !in db.users ==>
            r.events == [DocumentBroadcast(Everyone, newId), Error(Caller, SaveFailed)])
      && (data.userId.Some? && data.userId.value in db.users ==>
            r.events == [DocumentBroadcast(Everyone, newId)] + SentEvents(SentRooms(db.users, data.userId.value), newId))
    ensures Valid(db) ==> Valid(r.db)
  {
    match SocketDraft(data, isObjectId)
    case Err(_) => Step(db, [Error(Caller, SaveFailed)])
    case Ok(m) =>
      match InsertMessage(db, newId, m)
      case Err(_) => Step(db, [Error(Caller, SaveFailed)])
      case Ok(saved) =>
        if data.userId.None? then
          Step(saved, [Error(Caller, SaveFailed)])
        else
          var uid := data.userId.value;
          var broadcast := [DocumentBroadcast(Everyone, newId)];
          if uid !in saved.users then
            Step(saved, broadcast + [Error(Caller, SaveFailed)])
          else
            var events := SentEvents(SentRooms(saved.users, uid), newId);
            SentTargetsOfSent(SentRooms(saved.users, uid), newId);
            NoErrorsInSent(SentRooms(saved.users, uid), newId);
            Step(saved, broadcast + events)
  }

  lemma {:induction false} SentTargetsOfSent(rooms: seq<Id>, messageId: Id)
    ensures SentTargets([DocumentBroadcast(Everyone, messageId)] + SentEvents(rooms, messageId)) == RoomsOf(rooms)
    decreases |rooms|
  {
    var tail := SentEvents(rooms, messageId);
    assert ([DocumentBroadcast(Everyone, messageId)] + tail)[1..] == tail;
    SentTargetsOfEvents(rooms, messageId);
  }

  /** Each room as a notification target. */
  function RoomsOf(rooms: seq<Id>): (r: seq<Target>)
    ensures |r| == |rooms|
    ensures forall i :: 0 <= i < |rooms| ==> r[i] == Room(rooms[i])
  {
    if rooms == [] then [] else [Room(rooms[0])] + RoomsOf(rooms[1..])
  }

  lemma {:induction false} SentTargetsOfEvents(rooms: seq<Id>, messageId: Id)
    ensures SentTargets(SentEvents(rooms, messageId)) == RoomsOf(rooms)
    decreases |rooms|
  {
    if rooms != [] {
      SentTargetsOfEvents(rooms[1..], messageId);
      assert SentEvents(rooms, messageId)[1..] == SentEvents(rooms[1..], messageId);
    }
  }

  lemma {:induction false} NoErrorsInSent(rooms: seq<Id>, messageId: Id)
    ensures ErrorTexts([DocumentBroadcast(Everyone, messageId)] + SentEvents(rooms, messageId)) == []
    decreases |rooms|
  {
    var tail := SentEvents(rooms, messageId);
    assert ([DocumentBroadcast(Everyone, messageId)] + tail)[1..] == tail;
    NoErrorsInEvents(rooms, messageId);
  }

  lemma {:induction false} NoErrorsInEvents(rooms: seq<Id>, messageId: Id)
    ensures ErrorTexts(SentEvents(rooms, messageId)) == []
    decreases |rooms|
  {
    if rooms != [] {
      NoErrorsInEvents(rooms[1..], messageId);
      assert SentEvents(rooms, messageId)[1..] == SentEvents(rooms[1..], messageId);
    }
  }

  /** Rooms are not merged: a user whose sub-admin reference names itself
      gets the same `messageSent` twice. */
  lemma SelfSubAdminNotifiedTwice(db: Db, data: MessageData, newId: Id, isObjectId: string -> bool)
    requires SocketDraft(data, isObjectId).Ok? && newId !in db.messages
    requires data.userId.Some? && data.userId.value in db.users
    requires db.users[data.userId.value].subAdminId == data.userId
    ensures SentTargets(OnMessage(db, data, newId, isObjectId).events) == [Room(data.userId.value), Room(data.userId.value)]
  {
  }

  /** Every room told about a new message is the sender's or its sub-admin's. */
  lemma SentOnlyToSenderOrSubAdmin(db: Db, data: MessageData, newId: Id, isObjectId: string -> bool, t: Target)
    requires t in SentTargets(OnMessage(db, data, newId, isObjectId).events)
    ensures data.userId.Some? && data.userId.value in db.users
    ensures t == Room(data.userId.value) || Some(t.name) == db.users[data.userId.value].subAdminId
  {
  }

  // ----- replyMessage -----

  /** The payload of `replyMessage`. */
  datatype ReplyData = ReplyData(originalMessageId: Id, content: Option<string>, userId: Option<Id>, origin: Option<string>)

  /** The thread a reply joins: the original's thread when it has one,
      otherwise the thread the original message starts. */
  function ThreadOf(originalId: Id, original: Message): (t: Id)
    ensures Truthy(original.threadId) ==> Some(t) == original.threadId
    ensures !Truthy(original.threadId) ==> t == originalId
  {
    OrElse(original.threadId, originalId)
  }

  /** The reply document: from the replier to the original's sender, on the
      original's device and thread, with status sent. */
  function ReplyDraft(data: ReplyData, originalId: Id, original: Message): (r: Result<Message>)
    ensures r.Ok? <==>
      (Truthy(data.userId) && Truthy(original.sender) && Truthy(data.content) && ParseOrigin(OrElse(data.origin, "CRM")).Some?)
    ensures r.Ok? ==>
      && r.value.sender == data.userId && r.value.userId == data.userId
      && r.value.receiver == original.sender
      && r.value.content == data.content
      && r.value.deviceId == original.deviceId
      && r.value.threadId == Some(ThreadOf(originalId, original))
      && r.value.status == Sent
      && (Truthy(data.origin) ==> OriginName(r.value.origin) == data.origin.value)
      && (!Truthy(data.origin) ==> r.value.origin == CRM)
  {
    NewMessage(data.userId, original.sender, data.content, Some(Sent), data.userId,
               original.deviceId, Some(ThreadOf(originalId, original)), Some(OrElse(data.origin, "CRM")))
  }

  /** `replyMessage`: an unknown original, or a reply that fails to save,
      creates and emits nothing; otherwise the reply is stored and `newReply`
      goes to the original sender's room and then the replier's room. */
  function OnReplyMessage(db: Db, data: ReplyData, newId: Id): (r: Step)
    ensures data.originalMessageId !in db.messages ==> r == Step(db, [])
    ensures data.originalMessageId in db.messages ==>
      var original := db.messages[data.originalMessageId];
      && (ReplyDraft(data, data.originalMessageId, original).Err? || newId in db.messages ==> r == Step(db, []))
      && (ReplyDraft(data, data.originalMessageId, original).Ok? && newId !in db.messages ==>
            var reply := ReplyDraft(data, data.originalMessageId, original).value;
            && r.db == db.(messages := db.messages[newId := reply])
            && r.events == [NewReply(Room(original.sender.value), newId, reply), NewReply(Room(data.userId.value), newId, reply)])
    ensures Valid(db) ==> Valid(r.db)
  {
    if data.originalMessageId !in db.messages then Step(db, [])
    else
      var original := db.messages[data.originalMessageId];
      match ReplyDraft(data, data.originalMessageId, original)
      case Err(_) => Step(db, [])
      case Ok(reply) =>
        match InsertMessage(db, newId, reply)
        case Err(_) => Step(db, [])
        case Ok(saved) =>
          Step(saved, [NewReply(Room(original.sender.value), newId, reply), NewReply(Room(data.userId.value), newId, reply)])
  }

  /** A reply to a message outside any thread starts the thread named by
      that message, and a reply to the reply joins the same thread. */
  lemma ReplyChainSharesThread(db: Db, first: ReplyData, firstId: Id)
    requires first.originalMessageId != ""
    requires first.originalMessageId in db.messages && !Truthy(db.messages[first.originalMessageId].threadId)
    requires ReplyDraft(first, first.originalMessageId, db.messages[first.originalMessageId]).Ok? && firstId !in db.messages
    ensures var after := OnReplyMessage(db, first, firstId).db;
      firstId in after.messages
      && ThreadOf(firstId, after.messages[firstId]) == first.originalMessageId
  {
  }

  // ----- messageDelivered / messageRead -----

  /** `messageDelivered` and `messageRead` as written: an unknown id changes
      and emits nothing; otherwise the status is overwritten whatever it was.
      The notification then reads `subAdminId` off the unpopulated owner id,
      which fails, so only the owner's room hears of it, and nobody does when
      the message has no owner. */
  function OnStatusEvent(db: Db, messageId: Id, target: Status): (r: Step)
    ensures messageId !in db.messages ==> r == Step(db, [])
    ensures messageId in db.messages ==>
      && r.db == UpdateStatus(db, messageId, target)
      && r.events == (match db.messages[messageId].userId
                      case None => []
                      case Some(owner) => [MessageStatusUpdate(Room(owner), messageId, target)])
    ensures Valid(db) ==> Valid(r.db)
  {
    if messageId !in db.messages then Step(db, [])
    else
      var after := UpdateStatus(db, messageId, target);
      match after.messages[messageId].userId
      case None => Step(after, [])
      case Some(owner) => Step(after, [MessageStatusUpdate(Room(owner), messageId, target)])
  }

  /** `messageDelivered`. */
  function OnMessageDelivered(db: Db, messageId: Id): (r: Step)
    ensures messageId !in db.messages ==> r.db == db && r.events == []
    ensures messageId in db.messages ==>
      && messageId in r.db.messages && r.db.messages[messageId].status == Delivered
      && (db.messages[messageId].userId.None? ==> r.events == [])
      && (db.messages[messageId].userId.Some? ==>
            r.events == [MessageStatusUpdate(Room(db.messages[messageId].userId.value), messageId, Delivered)])
  {
    OnStatusEvent(db, messageId, Delivered)
  }

  /** `messageRead`: stores `read`, which the schema does not declare. */
  function OnMessageRead(db: Db, messageId: Id): (r: Step)
    ensures messageId !in db.messages ==> r.db == db && r.events == []
    ensures messageId in db.messages ==>
      && messageId in r.db.messages && r.db.messages[messageId].status == Read
      && (db.messages[messageId].userId.None? ==> r.events == [])
      && (db.messages[messageId].userId.Some? ==>
            r.events == [MessageStatusUpdate(Room(db.messages[messageId].userId.value), messageId, Read)])
  {
    OnStatusEvent(db, messageId, Read)
  }

  /** As written, the owner's sub-admin is never notified of a status change. */
  lemma SubAdminNeverNotified(db: Db, messageId: Id, target: Status, subAdmin: Id)
    requires messageId in db.messages
    requires db.messages[messageId].userId != Some(subAdmin)
    ensures forall e :: e in OnStatusEvent(db, messageId, target).events ==> e.to != Room(subAdmin)
  {
  }

  /** The status notification as evidently intended: the owner's room and,
      when the owner has a sub-admin, the sub-admin's room; nobody when the
      message has no owner. */
  function OnStatusEventNotifyingTenant(db: Db, messageId: Id, target: Status): (r: Step)
    ensures messageId !in db.messages ==> r == Step(db, [])
    ensures messageId in db.messages ==> r.db == UpdateStatus(db, messageId, target)
    ensures forall e :: e in r.events ==> e == MessageStatusUpdate(e.to, messageId, target)
    ensures messageId in db.messages && db.messages[messageId].userId.Some? ==>
      var owner := db.messages[messageId].userId.value;
      && Room(owner) in EventTargets(r.events)
      && (owner in db.users && db.users[owner].subAdminId.Some? ==>
            r.events == [MessageStatusUpdate(Room(owner), messageId, target),
                         MessageStatusUpdate(Room(db.users[owner].subAdminId.value), messageId, target)])
      && (!(owner in db.users && db.users[owner].subAdminId.Some?) ==>
            r.events == [MessageStatusUpdate(Room(owner), messageId, target)])
    ensures messageId in db.messages && db.messages[messageId].userId.None? ==> r.events == []
    ensures Valid(db) ==> Valid(r.db)
  {
    if messageId !in db.messages then Step(db, [])
    else
      var after := UpdateStatus(db, messageId, target);
      match after.messages[messageId].userId
      case None => Step(after, [])
      case Some(owner) =>
        var first := MessageStatusUpdate(Room(owner), messageId, target);
        if owner in db.users && db.users[owner].subAdminId.Some? then
          Step(after, [first, MessageStatusUpdate(Room(db.users[owner].subAdminId.value), messageId, target)])
        else
          Step(after, [first])
  }

  /** The targets of a list of events. */
  function EventTargets(events: seq<Event>): (r: set<Target>)
    ensures forall t :: t in r <==> exists e :: e in events && e.to == t
  {
    set e | e in events :: e.to
  }

  /** Where the status handler as written misses the sub-admin, the corrected
      one reaches it. */
  lemma CorrectedReachesSubAdmin(db: Db, messageId: Id, target: Status)
    requires messageId in db.messages && db.messages[messageId].userId.Some?
    requires var owner := db.messages[messageId].userId.value;
      owner in db.users && db.users[owner].subAdminId.Some? && db.users[owner].subAdminId != Some(owner)
    ensures var sub := db.users[db.messages[messageId].userId.value].subAdminId.value;
      Room(sub) in EventTargets(OnStatusEventNotifyingTenant(db, messageId, target).events)
      && Room(sub) !in EventTargets(OnStatusEvent(db, messageId, target).events)
  {
  }

  // ----- getPendingMessages -----

  /** `getPendingMessages`: exactly the messages whose status is pending. */
  function OnGetPendingMessages(db: Db): (r: Step)
    ensures r.db == db && |r.events| == 1 && r.events[0].PendingMessages? && r.events[0].to == Caller
    ensures forall id :: id in r.events[0].messages <==> id in db.messages && db.messages[id].status == Pending
    ensures forall id :: id in r.events[0].messages ==> r.events[0].messages[id] == db.messages[id]
  {
    Step(db, [PendingMessages(Caller, map id | id in db.messages && db.messages[id].status == Pending :: db.messages[id])])
  }
}

=== FILE: user_controller.dfy ===
/** The HTTP user handlers: registration with its tenancy rule, and login by
    e-mail address. */
module UserController {
  import opened Common
  import opened UserModel
  import opened Relay

  /** The body of a registration request. */
  datatype RegisterRequest = RegisterRequest(
    name: Option<string>, email: Option<string>, role: Option<string>, subAdminId: Option<Id>)

  /** The tenancy rule: an explicit `user` role needs a sub-admin. A missing
      role is not checked here, although the schema then defaults it to `user`. */
  predicate MissingSubAdmin(req: RegisterRequest) {
    req.role == Some("user") && !Truthy(req.subAdminId)
  }

  /** Saving a new user: refused when the id or the e-mail address is taken. */
  function InsertUser(db: Db, id: Id, u: User): (r: Result<Db>)
    ensures r.Ok? <==> id !in db.users && forall other :: other in db.users ==> db.users[other].email != u.email
    ensures r.Ok? ==> r.value == db.(users := db.users[id := u])
  {
    if id in db.users then Err(DuplicateKey("_id"))
    else if exists other :: other in db.users && db.users[other].email == u.email then Err(DuplicateKey("email"))
    else Ok(db.(users := db.users[id := u]))
  }

  /** `registerUser`: 400 for a `user` without a sub-admin, 500 when the
      document fails validation or a unique index, otherwise 201 with exactly
      one new user carrying the given fields. */
  function RegisterUser(db: Db, req: RegisterRequest, newId: Id): (r: Http)
    ensures r.events == []
    ensures MissingSubAdmin(req) ==>
      r == Http(db, [], 400, ErrorBody("A subAdminId is required to create a regular user account"))
    ensures r.code == 201 <==>
      && !MissingSubAdmin(req)
      && NewUser(req.name, req.email, req.role, req.subAdminId).Ok?
      && newId !in db.users
      && forall other :: other in db.users ==> db.users[other].email != req.email
    ensures r.code == 201 ==>
      && r.db.users.Keys == db.users.Keys + {newId}
      && (forall id :: id in db.users ==> r.db.users[id] == db.users[id])
      && r.db.users[newId].name == req.name && r.db.users[newId].email == req.email
      && r.db.users[newId].subAdminId == req.subAdminId
      && (req.role.None? ==> r.db.users[newId].role == RegularUser)
      && (req.role.Some? ==> RoleName(r.db.users[newId].role) == req.role.value)
      && r.db.messages == db.messages && r.db.devices == db.devices
      && r.body == UserBody(newId, r.db.users[newId])
    ensures r.code != 201 ==> r.db == db
    ensures Valid(db) ==> Valid(r.db)
  {
    if MissingSubAdmin(req) then
      Http(db, [], 400, ErrorBody("A subAdminId is required to create a regular user account"))
    else
      match NewUser(req.name, req.email, req.role, req.subAdminId)
      case Err(_) => Http(db, [], 500, ErrorBody("Failed to register user"))
      case Ok(u) =>
        match InsertUser(db, newId, u)
        case Err(_) => Http(db, [], 500, ErrorBody("Failed to register user"))
        case Ok(after) => Http(after, [], 201, UserBody(newId, u))
  }

  /** Only an explicit `user` role is checked: omitting the role registers a
      regular user with no sub-admin. */
  lemma OmittedRoleEscapesTenancy(db: Db, name: Option<string>, email: string, newId: Id)
    requires email != "" && newId !in db.users
    requires forall other :: other in db.users ==> db.users[other].email != Some(email)
    ensures var r := RegisterUser(db, RegisterRequest(name, Some(email), None, None), newId);
      r.code == 201 && r.db.users[newId].role == RegularUser && r.db.users[newId].subAdminId.None?
  {
  }

  /** A user with an explicit `user` role stored by registration always has a sub-admin. */
  lemma RegisteredUserRoleHasSubAdmin(db: Db, req: RegisterRequest, newId: Id)
    requires req.role == Some("user")
    requires RegisterUser(db, req, newId).code == 201
    ensures RegisterUser(db, req, newId).db.users[newId].subAdminId.Some?
  {
  }

  /** `loginUser`: the payload of the token for the user holding the
      address, or 404 with no token when no user holds it. The unique index
      on `email` makes that user unique. */
  function LoginUser(db: Db, email: string): (r: Http)
    requires UniqueEmails(db.users)
    ensures r.db == db && r.events == []
    ensures (forall u :: u in db.users ==> db.users[u].email != Some(email)) ==>
      r.code == 404 && r.body == ErrorBody("User not found")
    ensures forall u :: u in db.users && db.users[u].email == Some(email) ==>
      r.code == 200 && r.body == TokenBody(Token(u, db.users[u].role))
  {
    var holders := set u | u in db.users && db.users[u].email == Some(email);
    assert forall u :: u in db.users && db.users[u].email == Some(email) ==> u in holders;
    if holders == {} then Http(db, [], 404, ErrorBody("User not found"))
    else
      var u :| u in holders;
      Http(db, [], 200, TokenBody(Token(u, db.users[u].role)))
  }

  /** Registering and then logging in with the same address yields a token
      for the new user and its role. */
  lemma RegisterThenLogin(db: Db, req: RegisterRequest, newId: Id)
    requires Valid(db)
    requires RegisterUser(db, req, newId).code == 201
    ensures var after := RegisterUser(db, req, newId).db;
      UniqueEmails(after.users)
      && LoginUser(after, req.email.value).body == TokenBody(Token(newId, after.users[newId].role))
  {
  }
}

=== FILE: user_model.dfy ===
/** The user document: role enumeration, the optional sub-admin reference,
    and the required, unique e-mail address. */
module UserModel {
  import opened Common

  datatype Role = SuperAdmin | SubAdmin | RegularUser

  function RoleName(r: Role): string {
    match r
    case SuperAdmin => "super_admin"
    case SubAdmin => "sub_admin"
    case RegularUser => "user"
  }

  /** The enumeration check for `role`. */
  function ParseRole(s: string): (r: Option<Role>)
    ensures r.Some? ==> RoleName(r.value) == s
    ensures r.None? ==> forall x: Role :: RoleName(x) != s
  {
    if s == "super_admin" then Some(SuperAdmin)
    else if s == "sub_admin" then Some(SubAdmin)
    else if s == "user" then Some(RegularUser)
    else None
  }

  /** A user document. `name` is optional; `email` is required; `subAdminId`
      references the owning sub-admin and is null by default. */
  datatype User = User(name: Option<string>, email: Option<string>, role: Role, subAdminId: Option<Id>)

  /** Constructing a user document and validating it as a save does: the
      role defaults to `user` and must be one of the three names, the e-mail
      must be a non-empty string, and `subAdminId` is null unless given. */
  function NewUser(name: Option<string>, email: Option<string>, role: Option<string>, subAdminId: Option<Id>): (r: Result<User>)
    ensures r.Ok? <==> Truthy(email) && (role.None? || ParseRole(role.value).Some?)
    ensures r.Ok? ==>
      && r.value.name == name && r.value.email == email
      && r.value.subAdminId == subAdminId
      && (role.None? ==> r.value.role == RegularUser)
      && (role.Some? ==> RoleName(r.value.role) == role.value)
  {
    var parsed := if role.None? then Some(RegularUser) else ParseRole(role.value);
    if !Truthy(email) then Err(Validation("email"))
    else if parsed.None? then Err(Validation("role"))
    else Ok(User(name, email, parsed.value, subAdminId))
  }

  /** The unique index on `email`: no two users share an address. */
  predicate UniqueEmails(users: map<Id, User>) {
    forall a, b :: a in users && b in users && a != b ==> users[a].email != users[b].email
  }

  /** Parsing inverts naming. */
  lemma RoleRoundTrip(r: Role)
    ensures ParseRole(RoleName(r)) == Some(r)
  {
  }
}
